=== FILE: README.md ===
# Dashing event push path, modelled in Dafny

This project models the core of dashing.net's event push path. That path is
the part that takes a published widget update and pushes it to every open
dashboard connection as a Server-Sent Events message. It has three pieces,
modelled as sequential, deterministic operations over immutable values:

- **`ClientBus`** (module `Bus`, `client_bus.dfy`). This is the registry of
  streaming clients, kept as a `seq<ClientId>` in which duplicates are
  allowed. It also holds the history, a `map<string, Event>` with the latest
  event per id. `SendEvent` returns three things: the new bus, the log of
  `Write(client, payload)` calls it made, and the exception that escaped, if
  any. Whether a client's `Write` throws is a parameter.
- **`EventStreamWriterResponse`** (module `EventStream`, `event_stream.dfy`).
  This is the Server-Sent Events framer. Each body becomes
  `"data: " ++ json ++ "\n\n"`, as described in the WHATWG HTML Living
  Standard, section 9.2.5 "Parsing an event stream". The frame is written to
  the stream that the response's `Contents` callback captures, and is
  flushed at once. The stream is a `seq<byte>` plus a flushed length and an
  open flag.
- **`NancyStreamHost`** (module `StreamHost`, `stream_host.dfy`). These are
  the host's translation helpers:
  - the listener prefixes;
  - base-URI selection and `Url` construction;
  - the Content-Length reading (RFC 9110, section 8.6);
  - response conversion, which closes the output of buffered responses and
    leaves streaming ones open;
  - the exception containment of `Process`.

The two routes that drive the bus, `GET /events` and `POST /widgets/{id}`,
are in module `Routes` (`routes.dfy`). Scenario lemmas there run the routes
through the bus, the writer and the host together.

Shared plain data lives in these modules:
- `Http` (`http.dfy`): bytes, streams, serializers, writer state, Nancy
  requests and responses, and URIs.
- `JsonValues` (`json_values.dfy`): a tagged JSON union.
- `Strings` (`strings.dfy`): .NET's ordinal `String.Replace` and
  `String.TrimEnd`, modelled exactly.
- `Outcomes` (`outcomes.dfy`): `Option` and `Result`.

Foreign code becomes function parameters:
- the JSON serializer's byte output (`Render`);
- the engine;
- `IsCaseInsensitiveBaseOf`, `MakeAppLocalPath`, `UrlDecode` and
  `long.TryParse` (the `Library` record);
- the deserialization of a POST body (`parse`);
- which clients' writes throw (`fails`).

The clock becomes a tick-count argument.

The code lacks several safeguards a reader might expect, and the model
follows the code:
- registration does not deduplicate;
- a failing `Write` aborts the broadcast and propagates, rather than being
  isolated per client and evicting that client;
- the broadcast iterates the live registry, not a snapshot;
- a malformed POST body is an escaping exception, not a client-error status;
- history is never evicted.

## Model

| member | source | states |
|---|---|---|
| Bus.Register | Dashing/Dashing.cs:28-31 | The client is appended last, earlier entries are kept in order, and one more copy of it is in the registry (duplicates kept). History is untouched. |
| Bus.RemoveFirstCutsFirstOccurrence | Dashing/Dashing.cs:33-36 | `List.Remove` cuts out exactly the first occurrence of the client, and leaves a registry without it unchanged. |
| Bus.RemoveFirstDropsOneCopy | Dashing/Dashing.cs:33-36 | Removal takes away one copy of the client, if there is one, and nothing else. |
| Bus.Disconnect | Dashing/Dashing.cs:33-36 | Only the first occurrence is removed, the others keep their relative order, an absent client is a no-op, and history is untouched. |
| Bus.DisconnectUndoesRegister | Dashing/Dashing.cs:28-36 | Disconnecting a client that was registered once, just now, restores the bus exactly. |
| Bus.GetHistory | Dashing/Dashing.cs:38-41 | For a history stored under its own ids, the query, enumerated at once, yields an event exactly when it is the current event for its id. No order is given. |
| Bus.HistoryHasOneEventPerId | Dashing/Dashing.cs:38-41 | The query yields exactly as many events as there are ids, one per id. |
| Bus.Augment | Dashing/Dashing.cs:46-48 | On object data, `id` is set to the event id and `updatedAt` to the tick count, and every other member is unchanged. On any other data, the member assignment throws. |
| Bus.Broadcast | Dashing/Dashing.cs:49-52 | There is one `Write` per registry entry, in registry order, with the same payload, up to the first client whose `Write` throws. That client is reported and no later client is written. |
| Bus.SendEvent | Dashing/Dashing.cs:43-53 | The history entry for the id is replaced even when the send later throws, and other ids are unchanged. The registry is unchanged. Non-object data throws before any write. Otherwise clients before the failing one got the augmented payload that history holds, and none after it did. The send succeeds exactly when the data is an object and no client fails. |
| Bus.SentEventIsStampedInHistory | Dashing/Dashing.cs:38-48 | Because history stores the event before its data object is augmented, a later `GetHistory` after sending object data yields that event with `id` and `updatedAt` set on its data and its other members kept, even when the broadcast threw. |
| Bus.HistoryHoldsLatest | Dashing/Dashing.cs:45 | After any sequence of sends, an id is in history exactly when it was there before or was sent. For each sent id, history holds the stamped most recent event with that id. Other ids keep their earlier entries. |
| Bus.SendAllWellKeyed | Dashing/Dashing.cs:45 | Sends keep every history entry stored under its own id. |
| Bus.FullFanoutReachesEachEntry | Dashing/Dashing.cs:49-52 | A broadcast that reached every entry wrote to a client once per registry entry it has, each time with the same payload. |
| Bus.OneSendReachesClient | Dashing/Dashing.cs:49-52 | In one send of object data, a client registered once receives the augmented payload exactly once when no entry up to and including its own throws, whatever later entries do. |
| Bus.OneSendStarvesClient | Dashing/Dashing.cs:49-52 | In one send, a client whose first entry comes after a throwing entry receives nothing, because the `foreach` aborts before reaching it. |
| Bus.RegisteredClientReceivesEveryEvent | Dashing/Dashing.cs:43-53 | A client registered once, with no entry up to and including its own throwing, receives exactly one payload per event sent, in sending order: that event's augmented data. Entries after it may throw. |
| Bus.EarlierFailureStarvesClient | Dashing/Dashing.cs:43-53 | Once an entry before a client's first entry throws, that client receives nothing from any sequence of sends, since the registry is never changed by sending and nothing isolates or evicts the failing client. |
| Bus.DoubleRegistrationWritesTwice | Dashing/Dashing.cs:28-52 | Registering the same client twice and sending once writes the augmented payload to it twice. |
| Bus.DisconnectedClientReceivesNothing | Dashing/Dashing.cs:33-52 | A client registered once and then disconnected gets no write from a later send. |
| EventStream.FirstJsonSerializer | Dashing/EventStreamWriter.cs:23 | The result is the first serializer that accepts `application/json`, and it is null exactly when none does. |
| EventStream.NewWriterResponse | Dashing/EventStreamWriter.cs:21-30 | A constructed writer has content type `text/event-stream`, no captured stream, the constructor's body as its first message, and the first JSON-capable serializer. |
| EventStream.FrameRoundTrip | Dashing/EventStreamWriter.cs:45-52 | Dropping the 6-byte `data: ` header and the two newlines of a frame returns the serializer output exactly, and a frame is 8 bytes longer than its payload. |
| EventStream.UnframeRoundTrip | Dashing/EventStreamWriter.cs:45-52 | Any byte string with the shape of a message is the frame of the payload it carries. |
| EventStream.Write | Dashing/EventStreamWriter.cs:32-43 | Before a stream is captured the result is InvalidOperation, without a serializer NullReference, and on a closed stream ObjectDisposed (an assumption about the stream class, see Left out). Nothing is written in these cases. Otherwise exactly one frame is appended after the prior bytes and everything is flushed. |
| EventStream.WriteAllAppendsFrames | Dashing/EventStreamWriter.cs:36-42 | n successive writes leave the prior bytes followed by their n frames in call order, all flushed. |
| EventStream.WriteAllFailsWhenWriterCannotWrite | Dashing/EventStreamWriter.cs:34-35 | A writer that cannot write fails at the first of any writes, with that write's exception. |
| EventStream.Contents | Dashing/EventStreamWriter.cs:25-29 | The constructor's callback captures the stream even if its write throws, and it throws what `Write` throws: NullReference without a serializer, ObjectDisposed on a closed stream. With a serializer and an open stream, the stream then holds the initial body's frame, flushed. The default constructor's callback changes nothing. |
| EventStream.FirstFrameIsInitialBody | Dashing/EventStreamWriter.cs:25-29 | After `Contents`, the stream holds its earlier bytes (none on the host's fresh output), then the initial body's frame, then one frame per later write, in call order. |
| EventStream.CloseStream | Dashing/EventStreamWriter.cs:54-57 | The captured stream is closed with its bytes kept. With no captured stream the result is NullReference. |
| EventStream.WriteAfterCloseFails | Dashing/EventStreamWriter.cs:54-57 | After `CloseStream` every `Write` fails, with ObjectDisposed when a serializer is present. |
| EventStream.DefaultWriterNeverWrites | Dashing/EventStreamWriter.cs:16-19 | A default-constructed writer captures no stream even after `Contents` runs, so its `Write` and `CloseStream` always fail. |
| Strings.ReplaceAllRemovesPattern | Dashing.Nancy/StreamHost.cs:53 | Replacing with one character that is not in the pattern leaves no occurrence of the pattern. |
| Strings.ReplaceAllWithoutPattern | Dashing.Nancy/StreamHost.cs:53 | A string that does not contain the pattern is returned unchanged. |
| StreamHost.ListenerPrefix | Dashing.Nancy/StreamHost.cs:53 | A prefix never contains `localhost`, and a URI text without `localhost` is used as is. |
| StreamHost.ListenerPrefixes | Dashing.Nancy/StreamHost.cs:51-54 | There is one prefix per base URI, in order. Each is the URI text with every `localhost` replaced by `+`. |
| StreamHost.FirstBase | Dashing.Nancy/StreamHost.cs:98 | The chosen base URI is the first one that is a case-insensitive base of the request URL. There is none exactly when no base URI matches. |
| Strings.TrimEnd | Dashing.Nancy/StreamHost.cs:115 | The result is a prefix of the input that does not end in the character, and everything cut off is that character. |
| Strings.TrimEndUnique | Dashing.Nancy/StreamHost.cs:115 | Those three properties determine the trimmed string uniquely. |
| Strings.TrimEndIdempotent | Dashing.Nancy/StreamHost.cs:115 | Trimming an already trimmed path changes nothing. |
| StreamHost.ExpectedRequestLength | Dashing.Nancy/StreamHost.cs:160-185 | The result is 0 for a null map, a missing `Content-Length` key or an empty value list. Two or more values are an error. A single value yields its parsed value unclamped, or 0 when it does not parse. A nonzero length comes only from a single parsable value. |
| StreamHost.ConvertRequest | Dashing.Nancy/StreamHost.cs:96-127 | It fails with NoBaseUri exactly when no base URI matches. Its other failures are several Content-Length values, and a negative parsed length, which Nancy's `RequestStream` refuses. It succeeds exactly when a base matches and the length reads as a non-negative number. On success: the body length is that number; method, headers and address are copied; scheme, host, query and fragment are copied verbatim; the port is absent exactly for the default port; `BasePath` is the first matching base's trimmed absolute path and never ends in `/`; the path is the decoded app-local path. |
| StreamHost.CookieHeaders | Dashing.Nancy/StreamHost.cs:136-139 | There is one `Set-Cookie` header per cookie, in order. |
| StreamHost.ConvertResponse | Dashing.Nancy/StreamHost.cs:129-158 | Every header and then one `Set-Cookie` per cookie are copied, along with content type and status. A buffered output is closed and flushed even when its callback throws. A streaming output stays open. It is the stream the writer's `Contents` captured, or the untouched fresh output for a writer with no initial body. With a serializer it holds exactly the initial frame; when the initial write throws, that exception is reported as the render error. |
| StreamHost.Attempt | Dashing.Nancy/StreamHost.cs:204-219 | Request-translation and engine exceptions escape the outer `try` body. Once the request is translated and the engine answers, the body completes: a render exception is caught by the inner `catch` and logged once in the trace, and the listener response is still produced. |
| StreamHost.Process | Dashing.Nancy/StreamHost.cs:202-226 | No exception escapes. A failed translation or engine call abandons the connection, and otherwise the outcome of the body stands. |
| StreamHost.UnmatchedRequestIsSwallowed | Dashing.Nancy/StreamHost.cs:98-103 | A request under no base URI throws inside `Process`, yet `Process` returns normally with the connection abandoned. |
| StreamHost.ThrowingBufferedResponseIsClosedAndLogged | Dashing.Nancy/StreamHost.cs:151-157 | A buffered response whose callback throws is still closed, the failure is logged once, and `Process` returns normally. |
| StreamHost.ThrowingStreamingWriterIsLoggedAndOpen | Dashing.Nancy/StreamHost.cs:147-150 | A streaming response whose writer has no serializer throws on its initial write; `Process` still returns the response with its output open, and the failure is logged once as a NullReference. |
| Routes.EventsRoute | Dashing/Dashing.cs:83-89 | `GET /events` registers the new writer last and leaves history alone. It answers an event-stream response whose first message is `{id:"Open", data:"Open"}` and which has captured no stream yet. It has no serializer exactly when none accepts JSON. |
| Routes.WidgetsRoute | Dashing/Dashing.cs:91-103 | A body that does not deserialize changes nothing. Otherwise the bus and writes are those of `SendEvent` on the posted event, and the status is 200 exactly when the send raised nothing; a send exception escapes instead. A 200 means every registered client was written and history holds the stamped object. |
| Routes.PublishNumberScenario | Dashing/Dashing.cs:91-103 | Posting `{"current":123}` to `/widgets/number` returns 200. A registered client receives `{current:123, id:"number", updatedAt:ticks}`, and history holds the same payload. This mirrors the test in Dashing.Nancy.Tests/DashingTests.cs. |
| Routes.MalformedBodyChangesNothing | Dashing/Dashing.cs:93-95 | A body that does not deserialize throws before the bus is touched. |
| Routes.SubscribeScenario | Dashing/Dashing.cs:83-89 | `GET /events` registers the new writer last and returns an event-stream response. Once the host has converted it, the stream is open and holds exactly the frame of `{id:"Open", data:"Open"}`. |
| Routes.SubscribeThenReceive | Dashing/Dashing.cs:83-89 | After subscribing, each later write appears on the same open stream as the next frame after the open frame. |

## Left out

- The `HttpListener` accept loop (`Start`, `Stop`, `GotCallback`, `BeginGetContext`/`EndGetContext`) is asynchronous I/O and concurrency. `Process` is modelled for one connection.
- Thread safety of the static `Clients` and `History` collections is not modelled; the source has no locking and the model is sequential.
- The Nancy engine, routing and response helpers (`AsRedirect`, `AsFile`, `View`) are outside the model; the engine is a parameter that returns a response or throws.
- `JavaScriptSerializer`, `ToExpando` and the serializer's byte output are the `parse` and `Render` parameters. The model does not say what a non-object POST body deserializes to; augmenting non-object data is the `NotAnObject` error.
- `HttpUtility.UrlDecode`, `IsCaseInsensitiveBaseOf`, `MakeAppLocalPath` and the `NumberStyles.Any` grammar of `long.TryParse` are fields of the `Library` parameter.
- `SystemTime.Now` and `DateTime` are replaced by a tick count passed in.
- The dashboard, view and widget-file routes (Dashing/Dashing.cs:67-81), Dashing/Host.cs and Dashing.Nancy/Bootstrapper.cs are plumbing with no logic to verify. The commented-out Ruby code is not live behaviour.
- Dictionary enumeration order is not modelled: `GetHistory` returns a set, and Nancy's header dictionary is taken in the order given.
- JSON is simplified: object members are an unordered map, and numbers are exact reals, so double and decimal rounding is left out.
- Reference aliasing is not modelled: events hold values. The route always builds a fresh data object, so only the history entry shares it, and the history entry is given the augmented data to model that sharing.
- The `HttpListenerResponse` setters are assumed not to throw, so restricted headers and out-of-range status codes are not modelled. The listener response starts with no headers.
- A client's network failure appears only as a closed stream, or as the `fails` parameter of the bus.
- The request body stream is represented only by the expected length handed to `RequestStream`; the body's real length is not modelled. The remote endpoint is represented only by its address text.
- StreamHost.ExpectedRequestLength: looks up the exact key `Content-Length`. The key comparer of Nancy's `ToDictionary` is not part of this model, so a case-insensitive lookup is not stated.
- StreamHost.ListenerPrefixes: the prefixes are returned rather than added to `HttpListener.Prefixes`, which may reject malformed prefixes.
- The disposal of the Nancy context is not modelled. The trace log holds the render exception rather than the text of its message.
- `EventStreamWriterResponse` ignores its constructor's `id` argument, and so does the model.
- Bus.GetHistory: `History.Select(s => s.Value)` is a lazy query over the live dictionary, so a caller that enumerates it later sees later sends, and enumerating it during a send throws. The model gives the events the query yields when enumerated at once.
- EventStream.Write: EventStreamWriter.cs only copies to the captured stream; that a write to a closed stream throws `ObjectDisposedException` is an assumption about the stream class passed in (`HttpListenerResponse.OutputStream`), which is not part of this model. A stream that silently dropped such writes is not modelled. The serializer (`Render`) is assumed never to throw; a throwing `Serialize` would make `Write` fail on an open stream with a serializer.
- EventStream.WriteAfterCloseFails: rests on the same assumption about writes to a closed stream.
- StreamHost.ConvertRequest: Nancy's `RequestStream` and `Request` constructors are not part of this model. The model assumes only that a negative expected length is refused, and that nothing else in them throws.

=== FILE: client_bus.dfy ===
/** `ClientBus`: the registry of streaming clients and the latest-event-per-id
    history. Writes are not performed here: `SendEvent` returns the log of
    `Write` calls it made, and which clients' `Write` throws is a parameter. */
module Bus {
  import opened Outcomes
  import opened JsonValues

  /** The identity of a registered `EventStreamWriterResponse`. */
  type ClientId = nat

  /** An `Event`; `updatedAt` is the tick count of its timestamp. */
  datatype Event = Event(id: string, updatedAt: nat, data: Json)

  datatype ClientBus = ClientBus(clients: seq<ClientId>, history: map<string, Event>)

  /** One `client.Write(payload)` call. */
  datatype Delivered = Delivered(client: ClientId, payload: Json)

  /** The exception `SendEvent` lets escape. */
  datatype SendError =
    | NotAnObject                  // the data has no members to assign `id` and `updatedAt` to
    | WriteFailed(client: ClientId) // this client's `Write` threw

  /** The bus after a send, the writes made, and the exception that ended it, if any. */
  datatype Sent = Sent(bus: ClientBus, writes: seq<Delivered>, error: Option<SendError>)

  /** The static collections as the process starts: no clients, no history. */
  const Empty: ClientBus := ClientBus([], map[])

  /** Every history entry is stored under its own id. */
  predicate WellKeyed(h: map<string, Event>) {
    forall id :: id in h ==> h[id].id == id
  }

  /** `Clients.Add(client)`: the client goes last, duplicates included. */
  function Register(b: ClientBus, c: ClientId): (r: ClientBus)
    ensures |r.clients| == |b.clients| + 1
    ensures r.clients[..|b.clients|] == b.clients && r.clients[|b.clients|] == c
    ensures multiset(r.clients) == multiset(b.clients) + multiset{c}
    ensures r.history == b.history
  {
    b.(clients := b.clients + [c])
  }

  /** The position of the first occurrence of `c`. */
  function IndexOf(s: seq<ClientId>, c: ClientId): (i: nat)
    requires c in s
    ensures i < |s| && s[i] == c
    ensures forall j :: 0 <= j < i ==> s[j] != c
    decreases |s|
  {
    if s[0] == c then 0 else 1 + IndexOf(s[1..], c)
  }

  /** `List.Remove`: drops the first occurrence of `c`, if any. */
  function RemoveFirst(s: seq<ClientId>, c: ClientId): seq<ClientId>
    decreases |s|
  {
    if |s| == 0 then []
    else if s[0] == c then s[1..]
    else [s[0]] + RemoveFirst(s[1..], c)
  }

  /** Removal cuts out exactly the first occurrence and leaves a sequence
      without `c` as it is. */
  lemma {:induction false} RemoveFirstCutsFirstOccurrence(s: seq<ClientId>, c: ClientId)
    ensures c !in s ==> RemoveFirst(s, c) == s
    ensures c in s ==> RemoveFirst(s, c) == s[..IndexOf(s, c)] + s[IndexOf(s, c) + 1..]
    decreases |s|
  {
    if |s| > 0 && s[0] != c {
      RemoveFirstCutsFirstOccurrence(s[1..], c);
      if c in s {
        var j := IndexOf(s[1..], c);
        assert IndexOf(s, c) == 1 + j;
        assert s[..j + 1] == [s[0]] + s[1..][..j];
        assert s[j + 2..] == s[1..][j + 1..];
      } else {
        assert s == [s[0]] + s[1..];
      }
    }
  }

  /** Removal takes away one copy of `c`, if there is one, and nothing else. */
  lemma {:induction false} RemoveFirstDropsOneCopy(s: seq<ClientId>, c: ClientId)
    ensures multiset(RemoveFirst(s, c)) == multiset(s) - multiset{c}
    decreases |s|
  {
    if |s| > 0 {
      assert s == [s[0]] + s[1..];
      assert multiset(s) == multiset{s[0]} + multiset(s[1..]);
      if s[0] != c {
        RemoveFirstDropsOneCopy(s[1..], c);
        assert multiset(RemoveFirst(s, c)) == multiset{s[0]} + multiset(RemoveFirst(s[1..], c));
      }
    }
  }

  /** `Clients.Remove(client)`: removes the first occurrence only, keeps the
      order of the others, and does nothing for an unregistered client. */
  function Disconnect(b: ClientBus, c: ClientId): (r: ClientBus)
    ensures c !in b.clients ==> r == b
    ensures c in b.clients ==>
              var i := IndexOf(b.clients, c);
              r.clients == b.clients[..i] + b.clients[i + 1..]
    ensures multiset(r.clients) == multiset(b.clients) - multiset{c}
    ensures r.history == b.history
  {
    RemoveFirstCutsFirstOccurrence(b.clients, c);
    RemoveFirstDropsOneCopy(b.clients, c);
    b.(clients := RemoveFirst(b.clients, c))
  }

  /** Disconnecting a client that was registered once, last, undoes the registration. */
  lemma DisconnectUndoesRegister(b: ClientBus, c: ClientId)
    requires c !in b.clients
    ensures Disconnect(Register(b, c), c) == b
  {
  }

  /** `GetHistory()`: the events the query over the history yields when it is
      enumerated at once, in no particular order; an event is yielded exactly
      when it is the current one for its id. */
  function GetHistory(b: ClientBus): (events: set<Event>)
    ensures WellKeyed(b.history) ==>
              forall ev :: ev in events <==> ev.id in b.history && b.history[ev.id] == ev
  {
    b.history.Values
  }

  /** In a well-keyed history distinct ids hold distinct events, so the
      query yields exactly one event per id. */
  lemma {:induction false} HistoryHasOneEventPerId(b: ClientBus)
    requires WellKeyed(b.history)
    ensures |GetHistory(b)| == |b.history|
    decreases |b.history|
  {
    var h := b.history;
    if |h| > 0 {
      var k :| k in h;
      var rest := h - {k};
      assert rest.Keys == h.Keys - {k};
      assert |rest| == |h| - 1;
      HistoryHasOneEventPerId(ClientBus(b.clients, rest));
      assert h.Values == rest.Values + {h[k]} by {
        forall ev | ev in h.Values ensures ev in rest.Values + {h[k]} {
          var id :| id in h && h[id] == ev;
          if id != k { assert rest[id] == ev; }
        }
      }
      assert h[k] !in rest.Values;
    }
  }

  /** `@event.id = ...; @event.updatedAt = ...Ticks` on the event's data:
      both members are set, every other member is left alone. Any data that
      is not an object has no members to set and the assignment throws. */
  function Augment(e: Event): (r: Result<Json, SendError>)
    ensures r.Ok? <==> e.data.JObject?
    ensures r.Err? ==> r.error == NotAnObject
    ensures r.Ok? ==>
              && r.value.JObject?
              && r.value.fields.Keys == e.data.fields.Keys + {"id", "updatedAt"}
              && r.value.fields["id"] == JString(e.id)
              && r.value.fields["updatedAt"] == JNumber(e.updatedAt as real)
              && forall k :: k in e.data.fields && k != "id" && k != "updatedAt" ==>
                               r.value.fields[k] == e.data.fields[k]
  {
    match e.data
    case JObject(fields) => Ok(JObject(fields["id" := JString(e.id)]["updatedAt" := JNumber(e.updatedAt as real)]))
    case _ => Err(NotAnObject)
  }

  /** The event as history holds it after it is sent: history stores the very
      object that is then augmented, so the stored data carries `id` and
      `updatedAt` whenever augmentation succeeded. */
  function Stamped(e: Event): (s: Event)
    ensures s.id == e.id && s.updatedAt == e.updatedAt
  {
    match Augment(e)
    case Ok(data) => e.(data := data)
    case Err(_) => e
  }

  /** The writes of one `foreach` over the registry and the client whose `Write` threw. */
  datatype Fanout = Fanout(writes: seq<Delivered>, failed: Option<ClientId>)

  /** `foreach (var client in Clients) client.Write(@event)`: one write per
      entry, in registry order, until the first client whose write throws. */
  function Broadcast(clients: seq<ClientId>, payload: Json, fails: ClientId -> bool): (r: Fanout)
    ensures |r.writes| <= |clients|
    ensures forall i :: 0 <= i < |r.writes| ==>
              r.writes[i] == Delivered(clients[i], payload) && !fails(clients[i])
    ensures r.failed.None? ==> |r.writes| == |clients|
    ensures r.failed.Some? ==>
              |r.writes| < |clients| && fails(clients[|r.writes|]) && r.failed.value == clients[|r.writes|]
    decreases |clients|
  {
    if |clients| == 0 then Fanout([], None)
    else if fails(clients[0]) then Fanout([], Some(clients[0]))
    else
      var rest := Broadcast(clients[1..], payload, fails);
      Fanout([Delivered(clients[0], payload)] + rest.writes, rest.failed)
  }

  /** `SendEvent(e)`: store the event, augment its data, then write the
      augmented data to every registered client in order. History is updated
      before anything can throw; a throwing `Write` ends the loop. */
  function SendEvent(b: ClientBus, e: Event, fails: ClientId -> bool): (r: Sent)
    ensures r.bus.clients == b.clients
    ensures r.bus.history.Keys == b.history.Keys + {e.id}
    ensures r.bus.history[e.id] == Stamped(e)
    ensures forall id :: id in b.history && id != e.id ==> r.bus.history[id] == b.history[id]
    ensures WellKeyed(b.history) ==> WellKeyed(r.bus.history)
    ensures !e.data.JObject? ==> r.writes == [] && r.error == Some(NotAnObject)
    ensures e.data.JObject? ==>
              var payload := r.bus.history[e.id].data;
              && |r.writes| <= |b.clients|
              && (forall i :: 0 <= i < |r.writes| ==>
                    r.writes[i] == Delivered(b.clients[i], payload) && !fails(b.clients[i]))
              && (r.error.None? ==> |r.writes| == |b.clients|)
              && (r.error.Some? ==>
                    && |r.writes| < |b.clients|
                    && fails(b.clients[|r.writes|])
                    && r.error.value == WriteFailed(b.clients[|r.writes|]))
    ensures r.error.None? <==> e.data.JObject? && forall i :: 0 <= i < |b.clients| ==> !fails(b.clients[i])
  {
    var stored := b.(history := b.history[e.id := Stamped(e)]);
    match Augment(e)
    case Err(err) => Sent(stored, [], Some(err))
    case Ok(payload) =>
      var out := Broadcast(b.clients, payload, fails);
      var error := if out.failed.Some? then Some(WriteFailed(out.failed.value)) else None;
      Sent(stored, out.writes, error)
  }

  /** What a later `GetHistory` shows after a send of object data: the sent
      event, whose data now carries the event's id and tick count, whether or
      not the broadcast that followed threw. */
  lemma SentEventIsStampedInHistory(b: ClientBus, e: Event, fails: ClientId -> bool)
    requires e.data.JObject?
    ensures exists ev :: ev in GetHistory(SendEvent(b, e, fails).bus)
              && ev.id == e.id && ev.updatedAt == e.updatedAt
              && ev.data.JObject?
              && "id" in ev.data.fields && ev.data.fields["id"] == JString(e.id)
              && "updatedAt" in ev.data.fields && ev.data.fields["updatedAt"] == JNumber(e.updatedAt as real)
              && forall f :: f in e.data.fields && f != "id" && f != "updatedAt" ==>
                               f in ev.data.fields && ev.data.fields[f] == e.data.fields[f]
  {
  }

  /** The bus after sending `events` in order, each send starting from the
      state the previous one left, whether or not it threw. */
  function SendAll(b: ClientBus, events: seq<Event>, fails: ClientId -> bool): ClientBus
    decreases |events|
  {
    if |events| == 0 then b
    else SendEvent(SendAll(b, events[..|events| - 1], fails), events[|events| - 1], fails).bus
  }

  /** The most recent event in `events` with the given id. */
  function LatestSent(events: seq<Event>, id: string): Option<Event>
    decreases |events|
  {
    if |events| == 0 then None
    else if events[|events| - 1].id == id then Some(events[|events| - 1])
    else LatestSent(events[..|events| - 1], id)
  }

  /** After any sequence of sends the history holds, for each id that was
      sent, exactly the most recent event with that id, and for every other
      id what it held before. The registry is untouched. */
  lemma {:induction false} HistoryHoldsLatest(b: ClientBus, events: seq<Event>, fails: ClientId -> bool, id: string)
    ensures SendAll(b, events, fails).clients == b.clients
    ensures id in SendAll(b, events, fails).history <==> id in b.history || LatestSent(events, id).Some?
    ensures LatestSent(events, id).Some? ==>
              SendAll(b, events, fails).history[id] == Stamped(LatestSent(events, id).value)
    ensures LatestSent(events, id).None? && id in b.history ==>
              SendAll(b, events, fails).history[id] == b.history[id]
    decreases |events|
  {
    if |events| > 0 {
      HistoryHoldsLatest(b, events[..|events| - 1], fails, id);
    }
  }

  /** Sending keeps the history well keyed, so `GetHistory` afterwards has one event per id. */
  lemma {:induction false} SendAllWellKeyed(b: ClientBus, events: seq<Event>, fails: ClientId -> bool)
    requires WellKeyed(b.history)
    ensures WellKeyed(SendAll(b, events, fails).history)
    decreases |events|
  {
    if |events| > 0 {
      SendAllWellKeyed(b, events[..|events| - 1], fails);
    }
  }

  /** The payloads written to client `c`, in order. */
  function ReceivedBy(writes: seq<Delivered>, c: ClientId): seq<Json>
    decreases |writes|
  {
    if |writes| == 0 then [] else ReceivedOne(writes[0], c) + ReceivedBy(writes[1..], c)
  }

  /** The payload of one write if it went to `c`. */
  function ReceivedOne(d: Delivered, c: ClientId): seq<Json> {
    if d.client == c then [d.payload] else []
  }

  lemma {:induction false} ReceivedByAppend(a: seq<Delivered>, b: seq<Delivered>, c: ClientId)
    ensures ReceivedBy(a + b, c) == ReceivedBy(a, c) + ReceivedBy(b, c)
    decreases |a|
  {
    if |a| == 0 {
      assert a + b == b;
    } else {
      ReceivedByAppend(a[1..], b, c);
      var x, y, z := ReceivedOne(a[0], c), ReceivedBy(a[1..], c), ReceivedBy(b, c);
      assert (a + b)[1..] == a[1..] + b;
      assert ReceivedBy(a + b, c) == x + (y + z);
      assert x + (y + z) == (x + y) + z;
    }
  }

  /** The copies of `c` in a nonempty sequence: those in its head and those in its tail. */
  lemma CopiesOfHead(s: seq<ClientId>, c: ClientId)
    requires |s| > 0
    ensures multiset(s)[c] == (if s[0] == c then 1 else 0) + multiset(s[1..])[c]
  {
    assert s == [s[0]] + s[1..];
  }

  /** A broadcast that reached every entry wrote to a client once per
      registry entry it has, each time the same payload. */
  lemma {:induction false} FullFanoutReachesEachEntry(clients: seq<ClientId>, writes: seq<Delivered>, payload: Json, c: ClientId)
    requires |writes| == |clients|
    requires forall i :: 0 <= i < |writes| ==> writes[i] == Delivered(clients[i], payload)
    ensures |ReceivedBy(writes, c)| == multiset(clients)[c]
    ensures forall j :: 0 <= j < |ReceivedBy(writes, c)| ==> ReceivedBy(writes, c)[j] == payload
    decreases |clients|
  {
    if |clients| > 0 {
      var rest := ReceivedBy(writes[1..], c);
      FullFanoutReachesEachEntry(clients[1..], writes[1..], payload, c);
      CopiesOfHead(clients, c);
      var head := ReceivedOne(writes[0], c);
      assert ReceivedBy(writes, c) == head + rest;
    }
  }

  /** Every `Write` call made while sending `events` in order. */
  function AllWrites(b: ClientBus, events: seq<Event>, fails: ClientId -> bool): seq<Delivered>
    decreases |events|
  {
    if |events| == 0 then []
    else
      var before := events[..|events| - 1];
      AllWrites(b, before, fails) + SendEvent(SendAll(b, before, fails), events[|events| - 1], fails).writes
  }

  /** The augmented data of each event, in sending order. */
  function Payloads(events: seq<Event>): seq<Json>
    decreases |events|
  {
    if |events| == 0 then [] else Payloads(events[..|events| - 1]) + [Stamped(events[|events| - 1]).data]
  }

  /** The copies of `c` in a prefix that reaches its first occurrence, in a
      registry holding one copy: exactly one. */
  lemma PrefixHoldsOnlyCopy(clients: seq<ClientId>, c: ClientId, m: nat)
    requires multiset(clients)[c] == 1
    requires IndexOf(clients, c) < m <= |clients|
    ensures multiset(clients[..m])[c] == 1
  {
    assert clients == clients[..m] + clients[m..];
    assert clients[..m][IndexOf(clients, c)] == c;
  }

  /** One send of object data to a registry holding `c` once: `c` receives
      the augmented payload exactly once when no entry up to and including
      its own fails, whatever the entries after it do. */
  lemma OneSendReachesClient(b: ClientBus, e: Event, fails: ClientId -> bool, c: ClientId)
    requires multiset(b.clients)[c] == 1
    requires forall i :: 0 <= i <= IndexOf(b.clients, c) ==> !fails(b.clients[i])
    requires e.data.JObject?
    ensures ReceivedBy(SendEvent(b, e, fails).writes, c) == [Stamped(e).data]
  {
    var sent := SendEvent(b, e, fails);
    var m := |sent.writes|;
    assert IndexOf(b.clients, c) < m;
    PrefixHoldsOnlyCopy(b.clients, c, m);
    FullFanoutReachesEachEntry(b.clients[..m], sent.writes, Stamped(e).data, c);
  }

  /** One send to a registry in which an entry before `c`'s first one fails:
      the broadcast aborts before reaching `c`, which receives nothing. */
  lemma OneSendStarvesClient(b: ClientBus, e: Event, fails: ClientId -> bool, c: ClientId, j: nat)
    requires c in b.clients
    requires j < IndexOf(b.clients, c) && fails(b.clients[j])
    ensures ReceivedBy(SendEvent(b, e, fails).writes, c) == []
  {
    var sent := SendEvent(b, e, fails);
    forall i | 0 <= i < |sent.writes| ensures sent.writes[i].client != c {
      assert i < j;
    }
    NoEntryNoWrites(sent.writes, c);
  }

  /** A client registered once is written to exactly once per event sent, in
      sending order, with that event's augmented data, as long as no entry
      up to and including its own fails; entries after it may fail. */
  lemma {:induction false} RegisteredClientReceivesEveryEvent(b: ClientBus, events: seq<Event>, fails: ClientId -> bool, c: ClientId)
    requires multiset(b.clients)[c] == 1
    requires forall i :: 0 <= i <= IndexOf(b.clients, c) ==> !fails(b.clients[i])
    requires forall k :: 0 <= k < |events| ==> events[k].data.JObject?
    ensures ReceivedBy(AllWrites(b, events, fails), c) == Payloads(events)
    decreases |events|
  {
    if |events| > 0 {
      var before := events[..|events| - 1];
      var e := events[|events| - 1];
      RegisteredClientReceivesEveryEvent(b, before, fails, c);
      HistoryHoldsLatest(b, before, fails, e.id);
      var mid := SendAll(b, before, fails);
      OneSendReachesClient(mid, e, fails, c);
      ReceivedByAppend(AllWrites(b, before, fails), SendEvent(mid, e, fails).writes, c);
    }
  }

  /** The missing per-client isolation over time: once an entry before `c`
      fails, `c` receives nothing from any send, since the registry never
      changes and every broadcast aborts before reaching it. */
  lemma {:induction false} EarlierFailureStarvesClient(b: ClientBus, events: seq<Event>, fails: ClientId -> bool, c: ClientId, j: nat)
    requires c in b.clients
    requires j < IndexOf(b.clients, c) && fails(b.clients[j])
    ensures ReceivedBy(AllWrites(b, events, fails), c) == []
    decreases |events|
  {
    if |events| > 0 {
      var before := events[..|events| - 1];
      var e := events[|events| - 1];
      EarlierFailureStarvesClient(b, before, fails, c, j);
      HistoryHoldsLatest(b, before, fails, e.id);
      var mid := SendAll(b, before, fails);
      OneSendStarvesClient(mid, e, fails, c, j);
      ReceivedByAppend(AllWrites(b, before, fails), SendEvent(mid, e, fails).writes, c);
    }
  }

  /** Registering the same client twice makes one send write to it twice. */
  lemma DoubleRegistrationWritesTwice(c: ClientId, e: Event, fails: ClientId -> bool)
    requires e.data.JObject? && !fails(c)
    ensures var sent := SendEvent(Register(Register(Empty, c), c), e, fails);
            sent.error.None? && sent.writes == [Delivered(c, Stamped(e).data), Delivered(c, Stamped(e).data)]
  {
  }

  /** A client registered once and then disconnected receives no write. */
  lemma DisconnectedClientReceivesNothing(b: ClientBus, c: ClientId, e: Event, fails: ClientId -> bool)
    requires multiset(b.clients)[c] == 1
    ensures ReceivedBy(SendEvent(Disconnect(b, c), e, fails).writes, c) == []
  {
    var after := Disconnect(b, c);
    assert multiset(after.clients)[c] == 0;
    assert c !in after.clients;
    var sent := SendEvent(after, e, fails);
    forall i | 0 <= i < |sent.writes| ensures sent.writes[i].client != c {
      assert sent.writes[i].client == after.clients[i];
    }
    NoEntryNoWrites(sent.writes, c);
  }

  lemma {:induction false} NoEntryNoWrites(writes: seq<Delivered>, c: ClientId)
    requires forall i :: 0 <= i < |writes| ==> writes[i].client != c
    ensures ReceivedBy(writes, c) == []
    decreases |writes|
  {
    if |writes| > 0 {
      NoEntryNoWrites(writes[1..], c);
    }
  }
}

=== FILE: event_stream.dfy ===
/** `EventStreamWriterResponse`: frames each body as one Server-Sent Events
    message, `data: <json>` followed by a blank line (WHATWG HTML Living
    Standard, section 9.2.5 "Parsing an event stream"), and writes it to the
    response stream captured when the host runs the response's `Contents`. */
module EventStream {
  import opened Outcomes
  import opened JsonValues
  import opened Http

  /** UTF-8 bytes of "data: ". */
  const DataHeader: seq<byte> := [0x64, 0x61, 0x74, 0x61, 0x3A, 0x20]
  /** UTF-8 bytes of "\n". */
  const Newline: seq<byte> := [0x0A]
  const EventStreamContentType: string := "text/event-stream"
  const JsonMediaType: string := "application/json"
  /** Nancy's default status for a new `Response` (`HttpStatusCode.OK`). */
  const DefaultStatus: int := 200

  /** The bytes a serializer produces for a body; the JSON encoder is not part of this model. */
  type Render = (Serializer, Json) -> seq<byte>

  /** The exception a writer operation throws. */
  datatype WriteError =
    | InvalidOperation   // written to before any stream was captured
    | NullReference      // no serializer, or no stream to close
    | ObjectDisposed     // the captured stream is already closed

  predicate CanSerialize(s: Serializer, mediaType: string) {
    mediaType in s.mediaTypes
  }

  /** `serializers[i]` is the first serializer that accepts JSON. */
  predicate IsFirstJson(serializers: seq<Serializer>, i: int) {
    && 0 <= i < |serializers|
    && CanSerialize(serializers[i], JsonMediaType)
    && forall j :: 0 <= j < i ==> !CanSerialize(serializers[j], JsonMediaType)
  }

  /** `Serializers.FirstOrDefault(s => s.CanSerialize("application/json"))`. */
  function FirstJsonSerializer(serializers: seq<Serializer>): (r: Option<Serializer>)
    ensures r.Some? ==> exists i :: IsFirstJson(serializers, i) && serializers[i] == r.value
    ensures r.None? <==> forall i :: 0 <= i < |serializers| ==> !CanSerialize(serializers[i], JsonMediaType)
    decreases |serializers|
  {
    if |serializers| == 0 then None
    else if CanSerialize(serializers[0], JsonMediaType) then
      assert IsFirstJson(serializers, 0);
      Some(serializers[0])
    else
      var rest := FirstJsonSerializer(serializers[1..]);
      if rest.Some? then
        var i :| IsFirstJson(serializers[1..], i) && serializers[1..][i] == rest.value;
        assert IsFirstJson(serializers, i + 1);
        rest
      else
        rest
  }

  /** The message for a serialized body: header, payload, two newlines. */
  function Frame(payload: seq<byte>): seq<byte> {
    DataHeader + payload + Newline + Newline
  }

  /** The payload of a single message, if `message` has the shape of one. */
  function Unframe(message: seq<byte>): Option<seq<byte>> {
    if |message| >= 8 && message[..6] == DataHeader && message[|message| - 2..] == Newline + Newline
    then Some(message[6..|message| - 2])
    else None
  }

  /** Dropping the six header bytes and the two newlines recovers the payload,
      and a message is eight bytes longer than its payload. */
  lemma FrameRoundTrip(payload: seq<byte>)
    ensures Unframe(Frame(payload)) == Some(payload)
    ensures |Frame(payload)| == |payload| + 8
  {
    var f := Frame(payload);
    assert f[..6] == DataHeader;
    assert f[|f| - 2..] == Newline + Newline;
    assert f[6..|f| - 2] == payload;
  }

  /** Every byte string with the shape of a message is the frame of its payload. */
  lemma UnframeRoundTrip(message: seq<byte>, payload: seq<byte>)
    requires Unframe(message) == Some(payload)
    ensures Frame(payload) == message
  {
  }

  /** The messages for `bodies`, in order. */
  function Frames(s: Serializer, bodies: seq<Json>, render: Render): seq<byte>
    decreases |bodies|
  {
    if |bodies| == 0 then [] else Frame(render(s, bodies[0])) + Frames(s, bodies[1..], render)
  }

  /** The writer has a serializer and an open captured stream, so `Write` succeeds. */
  predicate CanWrite(w: Writer) {
    w.stream.Some? && w.serializer.Some? && w.stream.value.open
  }

  /** The constructor `EventStreamWriterResponse(formatter, id, body)`. The
      `id` argument is unused by the source and so not modelled. */
  function NewWriterResponse(serializers: seq<Serializer>, body: Json): (r: Response)
    ensures r.contentType == EventStreamContentType
    ensures r.body.Streaming?
    ensures r.body.writer.stream.None? && r.body.writer.initial == Some(body)
    ensures r.body.writer.serializer.Some? ==>
              exists i :: IsFirstJson(serializers, i) && serializers[i] == r.body.writer.serializer.value
    ensures r.body.writer.serializer.None? <==>
              forall i :: 0 <= i < |serializers| ==> !CanSerialize(serializers[i], JsonMediaType)
  {
    Response([], [], EventStreamContentType, DefaultStatus, Streaming(Writer(FirstJsonSerializer(serializers), Some(body), None)))
  }

  /** The parameterless constructor: no serializer, no initial body, no stream. */
  const DefaultWriter: Writer := Writer(None, None, None)

  /** `Write(body)`: serialize and frame into a buffer, copy it to the captured
      stream, flush. Fails, writing nothing, before a stream is captured, without
      a serializer, or on a closed stream, in that order of checks. */
  function Write(w: Writer, body: Json, render: Render): (r: Result<Writer, WriteError>)
    ensures w.stream.None? ==> r == Err(InvalidOperation)
    ensures w.stream.Some? && w.serializer.None? ==> r == Err(NullReference)
    ensures w.stream.Some? && w.serializer.Some? && !w.stream.value.open ==> r == Err(ObjectDisposed)
    ensures r.Ok? <==> CanWrite(w)
    ensures r.Ok? ==>
              && r.value.serializer == w.serializer && r.value.initial == w.initial
              && r.value.stream.Some? && r.value.stream.value.open
              && r.value.stream.value.bytes == w.stream.value.bytes + Frame(render(w.serializer.value, body))
              && r.value.stream.value.flushed == |r.value.stream.value.bytes|
  {
    match w.stream
    case None => Err(InvalidOperation)
    case Some(s) =>
      match w.serializer
      case None => Err(NullReference)
      case Some(ser) =>
        if !s.open then Err(ObjectDisposed)
        else
          var bytes := s.bytes + Frame(render(ser, body));
          Ok(w.(stream := Some(Stream(bytes, |bytes|, true))))
  }

  /** `n` calls of `Write`, stopping at the first failure. */
  function WriteAll(w: Writer, bodies: seq<Json>, render: Render): Result<Writer, WriteError>
    decreases |bodies|
  {
    if |bodies| == 0 then Ok(w)
    else
      match Write(w, bodies[0], render)
      case Err(e) => Err(e)
      case Ok(next) => WriteAll(next, bodies[1..], render)
  }

  /** Successive writes leave the stream holding the earlier bytes followed
      by one frame per body, in call order, all flushed. */
  lemma {:induction false} WriteAllAppendsFrames(w: Writer, bodies: seq<Json>, render: Render)
    requires CanWrite(w)
    ensures WriteAll(w, bodies, render).Ok?
    ensures CanWrite(WriteAll(w, bodies, render).value)
    ensures WriteAll(w, bodies, render).value.serializer == w.serializer
    ensures WriteAll(w, bodies, render).value.stream.value.bytes
            == w.stream.value.bytes + Frames(w.serializer.value, bodies, render)
    ensures |bodies| > 0 ==>
              WriteAll(w, bodies, render).value.stream.value.flushed == |WriteAll(w, bodies, render).value.stream.value.bytes|
    decreases |bodies|
  {
    if |bodies| > 0 {
      var next := Write(w, bodies[0], render).value;
      WriteAllAppendsFrames(next, bodies[1..], render);
      var s := w.serializer.value;
      assert w.stream.value.bytes + Frame(render(s, bodies[0])) + Frames(s, bodies[1..], render)
             == w.stream.value.bytes + Frames(s, bodies, render);
    }
  }

  /** A writer that cannot write fails on the first of any nonempty sequence of
      writes and so changes nothing. */
  lemma WriteAllFailsWhenWriterCannotWrite(w: Writer, bodies: seq<Json>, render: Render)
    requires !CanWrite(w) && |bodies| > 0
    ensures WriteAll(w, bodies, render).Err?
    ensures WriteAll(w, bodies, render) == Err(Write(w, bodies[0], render).error)
  {
  }

  /** What running the response's `Contents` callback on stream `s` returned:
      the writer afterwards and the exception it threw, if any. */
  datatype Invocation = Invocation(writer: Writer, error: Option<WriteError>)

  /** `Contents(s)`: the constructor's callback captures `s` and writes the
      initial body to it; the default constructor's callback does nothing. */
  function Contents(w: Writer, s: Stream, render: Render): (r: Invocation)
    ensures w.initial.None? ==> r.writer == w && r.error.None?
    ensures w.initial.Some? ==>
              && r.writer.stream.Some?
              && r.writer.serializer == w.serializer && r.writer.initial == w.initial
    ensures w.initial.Some? && w.serializer.Some? && s.open ==>
              && r.error.None?
              && r.writer.stream.value.open
              && r.writer.stream.value.bytes == s.bytes + Frame(render(w.serializer.value, w.initial.value))
              && r.writer.stream.value.flushed == |r.writer.stream.value.bytes|
    ensures w.initial.Some? && !(w.serializer.Some? && s.open) ==>
              r.error.Some? && r.writer.stream == Some(s)
    ensures w.initial.Some? && w.serializer.None? ==> r.error == Some(NullReference)
    ensures w.initial.Some? && w.serializer.Some? && !s.open ==> r.error == Some(ObjectDisposed)
  {
    match w.initial
    case None => Invocation(w, None)
    case Some(body) =>
      var captured := w.(stream := Some(s));
      match Write(captured, body, render)
      case Ok(written) => Invocation(written, None)
      case Err(e) => Invocation(captured, Some(e))
  }

  /** `CloseStream()`: closes the captured stream, or throws when there is none. */
  function CloseStream(w: Writer): (r: Result<Writer, WriteError>)
    ensures r.Err? <==> w.stream.None?
    ensures r.Err? ==> r.error == NullReference
    ensures r.Ok? ==>
              && r.value.serializer == w.serializer && r.value.initial == w.initial
              && r.value.stream.Some? && !r.value.stream.value.open
              && r.value.stream.value.bytes == w.stream.value.bytes
  {
    match w.stream
    case None => Err(NullReference)
    case Some(s) => Ok(w.(stream := Some(Close(s))))
  }

  /** After `CloseStream` every `Write` fails and the stream keeps its bytes. */
  lemma WriteAfterCloseFails(w: Writer, body: Json, render: Render)
    requires w.stream.Some?
    ensures Write(CloseStream(w).value, body, render).Err?
    ensures w.serializer.Some? ==> Write(CloseStream(w).value, body, render) == Err(ObjectDisposed)
  {
  }

  /** The default-constructed writer never captures a stream: whatever stream
      its `Contents` is run on, every later `Write` and `CloseStream` fails. */
  lemma DefaultWriterNeverWrites(s: Stream, body: Json, render: Render)
    ensures Contents(DefaultWriter, s, render).writer.stream.None?
    ensures Write(Contents(DefaultWriter, s, render).writer, body, render) == Err(InvalidOperation)
    ensures CloseStream(Contents(DefaultWriter, s, render).writer) == Err(NullReference)
  {
  }

  /** The first message on a stream handed to a constructed writer is its
      initial body, and every later `Write` follows it. */
  lemma FirstFrameIsInitialBody(w: Writer, s: Stream, bodies: seq<Json>, render: Render)
    requires w.initial.Some? && w.serializer.Some? && s.open
    ensures var c := Contents(w, s, render).writer;
            && WriteAll(c, bodies, render).Ok?
            && CanWrite(WriteAll(c, bodies, render).value)
            && WriteAll(c, bodies, render).value.stream.value.bytes
               == s.bytes + Frame(render(w.serializer.value, w.initial.value))
                  + Frames(w.serializer.value, bodies, render)
  {
    var c := Contents(w, s, render).writer;
    WriteAllAppendsFrames(c, bodies, render);
  }
}

=== FILE: http.dfy ===
/** The plain data exchanged between the listener, the Nancy engine, the
    event-stream writer and the bus: byte streams, URIs, requests and responses.
    Operations on these values live in the modules that own them. */
module Http {
  import opened Outcomes
  import opened JsonValues

  newtype byte = b: int | 0 <= b < 256

  /** A write-only byte channel: everything written so far, how much of it has
      been flushed to the client, and whether it is still open. */
  datatype Stream = Stream(bytes: seq<byte>, flushed: nat, open: bool)

  /** `HttpListenerResponse.OutputStream` as the host first sees it. */
  const EmptyOutput: Stream := Stream([], 0, true)

  /** `Stream.Close()`: flushes what is buffered and closes; closing twice is harmless. */
  function Close(s: Stream): (c: Stream)
    ensures c.bytes == s.bytes && c.flushed == |c.bytes| && !c.open
  {
    s.(flushed := |s.bytes|, open := false)
  }

  /** A Nancy serializer, identified by name, with the media types it accepts. */
  datatype Serializer = Serializer(name: string, mediaTypes: set<string>)

  /** The state of an `EventStreamWriterResponse`: the serializer chosen at
      construction (null when none qualified or the default constructor was
      used), the body its `Contents` callback writes first (None for the
      default constructor, whose `Contents` is Nancy's empty callback), and
      the captured response stream (null until `Contents` runs). */
  datatype Writer = Writer(serializer: Option<Serializer>, initial: Option<Json>, stream: Option<Stream>)

  /** How a Nancy response produces its body. A buffered response's `Contents`
      callback writes `written` and then throws exactly when `throws` holds. */
  datatype Body =
    | Buffered(written: seq<byte>, throws: bool)
    | Streaming(writer: Writer)

  datatype Header = Header(name: string, value: string)

  /** A Nancy `Response`: header dictionary, cookies (already rendered with
      `ToString`), content type, status code and body. */
  datatype Response = Response(headers: seq<Header>, cookies: seq<string>, contentType: string, statusCode: int, body: Body)

  /** A parsed `System.Uri`: its `ToString()` text and the components the host reads. */
  datatype Uri = Uri(
    text: string,
    scheme: string,
    host: string,
    port: int,
    isDefaultPort: bool,
    absolutePath: string,
    query: string,
    fragment: string)

  /** The parts of an `HttpListenerRequest` the host reads; headers are
      `Headers.ToDictionary()`, name to values. */
  datatype ListenerRequest = ListenerRequest(
    httpMethod: string,
    url: Uri,
    headers: map<string, seq<string>>,
    remoteAddress: Option<string>)

  /** Nancy's `Url`. */
  datatype Url = Url(
    scheme: string,
    hostName: string,
    port: Option<int>,
    basePath: string,
    path: string,
    query: string,
    fragment: string)

  /** Nancy's `Request`; the body stream is represented by the expected length handed to `RequestStream`. */
  datatype Request = Request(
    httpMethod: string,
    url: Url,
    bodyLength: int,
    headers: map<string, seq<string>>,
    userHostAddress: Option<string>)

  /** What the host writes into an `HttpListenerResponse`. */
  datatype ListenerResponse = ListenerResponse(headers: seq<Header>, contentType: string, statusCode: int, output: Stream)
}

=== FILE: json_values.dfy ===
/** The dynamic payload of an event, as a tagged JSON value. */
module JsonValues {

  /** A JSON value. Objects are maps because member assignment on an
      `ExpandoObject` replaces an existing member or adds a new one. */
  datatype Json =
    | JNull
    | JBool(b: bool)
    | JNumber(n: real)
    | JString(s: string)
    | JArray(items: seq<Json>)
    | JObject(fields: map<string, Json>)
}

=== FILE: outcomes.dfy ===
/** Failure-carrying values shared by every module of the model. */
module Outcomes {

  /** A value that may be absent: a C# null reference or a failed `TryParse`. */
  datatype Option<+T> = None | Some(value: T)

  /** The result of an operation that either completes with a value or throws `error`. */
  datatype Result<+T, +E> = Ok(value: T) | Err(error: E)
}

=== FILE: routes.dfy ===
/** The two routes of `DashingModule` that drive the bus, and scenarios that
    run them through the bus, the writer and the host. */
module Routes {
  import opened Outcomes
  import opened JsonValues
  import opened Http
  import opened EventStream
  import opened Bus
  import opened StreamHost

  /** The anonymous object `new { id = "Open", data = "Open" }` sent first on every stream. */
  const OpenPayload: Json := JObject(map["id" := JString("Open"), "data" := JString("Open")])

  /** The status the publish route returns. */
  const PublishedStatus: int := 200

  datatype Subscribed = Subscribed(bus: ClientBus, response: Response)

  /** GET /events: construct a writer whose first message is the open
      payload, register it (its identity is `newClient`) and return it. */
  function EventsRoute(b: ClientBus, newClient: ClientId, serializers: seq<Serializer>): (r: Subscribed)
    ensures r.bus.clients == b.clients + [newClient] && r.bus.history == b.history
    ensures r.response.contentType == EventStreamContentType
    ensures r.response.body.Streaming?
    ensures r.response.body.writer.initial == Some(OpenPayload) && r.response.body.writer.stream.None?
    ensures r.response.body.writer.serializer.None? <==>
              forall i :: 0 <= i < |serializers| ==> !CanSerialize(serializers[i], JsonMediaType)
  {
    Subscribed(Register(b, newClient), NewWriterResponse(serializers, OpenPayload))
  }

  /** Why the publish route failed: its body did not deserialize, or `SendEvent` threw. */
  datatype RouteError = BodyNotJson | SendFailed(error: SendError)

  /** The bus after the route, the writes it made, and its status or exception. */
  datatype Posted = Posted(bus: ClientBus, writes: seq<Delivered>, status: Result<int, RouteError>)

  /** POST /widgets/{id}: deserialize the body (`parse` stands for
      `JavaScriptSerializer.DeserializeObject` followed by `ToExpando`), send
      an event with that id, the body as data and `now` as its tick count,
      and answer 200. Exceptions are not mapped to a status: they escape. */
  function WidgetsRoute(b: ClientBus, id: string, body: string, now: nat, parse: string -> Option<Json>, fails: ClientId -> bool): (r: Posted)
    ensures parse(body).None? ==> r == Posted(b, [], Err(BodyNotJson))
    ensures parse(body).Some? ==>
              var sent := SendEvent(b, Event(id, now, parse(body).value), fails);
              && r.bus == sent.bus && r.writes == sent.writes
              && (r.status == Ok(PublishedStatus) <==> sent.error.None?)
              && (sent.error.Some? ==> r.status == Err(SendFailed(sent.error.value)))
    ensures r.status.Ok? ==>
              && parse(body).Some? && parse(body).value.JObject?
              && |r.writes| == |b.clients|
              && r.bus.history[id].data.JObject?
              && r.bus.history[id].data.fields["id"] == JString(id)
              && r.bus.history[id].data.fields["updatedAt"] == JNumber(now as real)
  {
    match parse(body)
    case None => Posted(b, [], Err(BodyNotJson))
    case Some(data) =>
      var sent := SendEvent(b, Event(id, now, data), fails);
      match sent.error
      case Some(e) => Posted(sent.bus, sent.writes, Err(SendFailed(e)))
      case None => Posted(sent.bus, sent.writes, Ok(PublishedStatus))
  }

  /** What a client receives when `{"current":123}` is posted to /widgets/number at tick `now`. */
  function NumberPayload(now: nat): Json {
    JObject(map["current" := JNumber(123.0), "id" := JString("number"), "updatedAt" := JNumber(now as real)])
  }

  /** Posting `{"current":123}` to /widgets/number answers 200, writes to a
      registered client a payload with `id = "number"` and `current = 123`,
      and leaves that same payload in history. */
  lemma PublishNumberScenario(b: ClientBus, client: ClientId, body: string, now: nat, parse: string -> Option<Json>)
    requires client in b.clients
    requires parse(body) == Some(JObject(map["current" := JNumber(123.0)]))
    ensures var r := WidgetsRoute(b, "number", body, now, parse, _ => false);
            && r.status == Ok(200)
            && Delivered(client, NumberPayload(now)) in r.writes
            && r.bus.history["number"].data == NumberPayload(now)
  {
  }

  /** Posting a body that does not deserialize changes nothing and writes nothing. */
  lemma MalformedBodyChangesNothing(b: ClientBus, id: string, body: string, now: nat, parse: string -> Option<Json>, fails: ClientId -> bool)
    requires parse(body).None?
    ensures WidgetsRoute(b, id, body, now, parse, fails) == Posted(b, [], Err(BodyNotJson))
  {
  }

  /** GET /events end to end: the new writer is registered last, the response
      is an event stream, and once the host has converted it the stream is
      open and holds exactly one message, the open payload. */
  lemma SubscribeScenario(b: ClientBus, newClient: ClientId, serializers: seq<Serializer>, render: Render)
    requires exists i :: 0 <= i < |serializers| && CanSerialize(serializers[i], JsonMediaType)
    ensures var sub := EventsRoute(b, newClient, serializers);
            var rendered := ConvertResponse(sub.response, render);
            && sub.bus.clients == b.clients + [newClient]
            && sub.response.contentType == EventStreamContentType
            && rendered.error.None?
            && rendered.response.output.open
            && FirstJsonSerializer(serializers).Some?
            && rendered.response.output.bytes == Frame(render(FirstJsonSerializer(serializers).value, OpenPayload))
  {
  }

  /** A subscribed client then receives each published payload as the next
      message on the same open stream, after the open message. */
  lemma SubscribeThenReceive(b: ClientBus, newClient: ClientId, serializers: seq<Serializer>, payloads: seq<Json>, render: Render)
    requires exists i :: 0 <= i < |serializers| && CanSerialize(serializers[i], JsonMediaType)
    ensures var rendered := ConvertResponse(EventsRoute(b, newClient, serializers).response, render);
            var ser := FirstJsonSerializer(serializers);
            && ser.Some?
            && rendered.writer.Some?
            && WriteAll(rendered.writer.value, payloads, render).Ok?
            && WriteAll(rendered.writer.value, payloads, render).value.stream.Some?
            && WriteAll(rendered.writer.value, payloads, render).value.stream.value.bytes
               == Frame(render(ser.value, OpenPayload)) + Frames(ser.value, payloads, render)
  {
    var response := EventsRoute(b, newClient, serializers).response;
    var rendered := ConvertResponse(response, render);
    var w := rendered.writer.value;
    assert CanWrite(w);
    WriteAllAppendsFrames(w, payloads, render);
  }
}

=== FILE: stream_host.dfy ===
/** `NancyStreamHost`: the bridge between `HttpListener` and Nancy. Modelled
    here are its pure parts: listener prefixes, request translation, the
    Content-Length reading, response translation with its buffered and
    streaming policies, and the exception containment of `Process`. */
module StreamHost {
  import opened Outcomes
  import opened Strings
  import opened Http
  import opened EventStream

  const LocalHostName: string := "localhost"
  const AnyHost: string := "+"
  /** The header that bounds the request body (RFC 9110, section 8.6). */
  const ContentLengthHeader: string := "Content-Length"
  const SetCookieHeader: string := "Set-Cookie"

  /** Library behaviour the host calls and this model does not define:
      Nancy's `IsCaseInsensitiveBaseOf` and `MakeAppLocalPath`,
      `HttpUtility.UrlDecode`, and `long.TryParse` with `NumberStyles.Any`. */
  datatype Library = Library(
    isCaseInsensitiveBaseOf: (Uri, Uri) -> bool,
    makeAppLocalPath: (Uri, Uri) -> string,
    urlDecode: string -> string,
    parseLong: string -> Option<int>)

  /** An exception that reaches the outer `catch` of `Process`. */
  datatype HostError =
    | NoBaseUri(url: string)   // InvalidOperationException: no base URI matches the request
    | MoreThanOneElement       // InvalidOperationException from SingleOrDefault on Content-Length
    | NegativeBodyLength(length: int) // ArgumentOutOfRangeException from Nancy's RequestStream
    | EngineThrew              // the Nancy engine threw while handling the request

  /** An exception thrown while writing a response to the listener. */
  datatype RenderError =
    | ContentsThrew              // a buffered response's Contents callback threw
    | WriterThrew(e: WriteError) // the event-stream writer's initial Write threw

  /** The listener prefix for one base URI: its text with every "localhost"
      replaced by the wildcard "+". */
  function ListenerPrefix(baseUri: Uri): (prefix: string)
    ensures !Occurs(prefix, LocalHostName)
    ensures !Occurs(baseUri.text, LocalHostName) ==> prefix == baseUri.text
  {
    ReplaceAllRemovesPattern(baseUri.text, LocalHostName, AnyHost);
    ReplaceAllWithoutPattern(baseUri.text, LocalHostName, AnyHost);
    ReplaceAll(baseUri.text, LocalHostName, AnyHost)
  }

  /** The constructor's loop adding one listener prefix per base URI. */
  method ListenerPrefixes(baseUris: seq<Uri>) returns (prefixes: seq<string>)
    ensures |prefixes| == |baseUris|
    ensures forall i :: 0 <= i < |baseUris| ==> prefixes[i] == ListenerPrefix(baseUris[i])
    ensures forall i :: 0 <= i < |prefixes| ==> !Occurs(prefixes[i], LocalHostName)
    ensures forall i :: 0 <= i < |baseUris| && !Occurs(baseUris[i].text, LocalHostName) ==>
              prefixes[i] == baseUris[i].text
  {
    prefixes := [];
    var k := 0;
    while k < |baseUris|
      invariant k <= |baseUris|
      invariant |prefixes| == k
      invariant forall i :: 0 <= i < k ==> prefixes[i] == ListenerPrefix(baseUris[i])
    {
      prefixes := prefixes + [ListenerPrefix(baseUris[k])];
      k := k + 1;
    }
  }

  /** `baseUris[i]` is the first base URI the request URL falls under. */
  predicate IsFirstBase(baseUris: seq<Uri>, url: Uri, isBaseOf: (Uri, Uri) -> bool, i: int) {
    && 0 <= i < |baseUris|
    && isBaseOf(baseUris[i], url)
    && forall j :: 0 <= j < i ==> !isBaseOf(baseUris[j], url)
  }

  /** `baseUriList.FirstOrDefault(uri => uri.IsCaseInsensitiveBaseOf(url))`, as a position. */
  function FirstBase(baseUris: seq<Uri>, url: Uri, isBaseOf: (Uri, Uri) -> bool): (r: Option<nat>)
    ensures r.Some? ==> IsFirstBase(baseUris, url, isBaseOf, r.value)
    ensures r.None? <==> forall j :: 0 <= j < |baseUris| ==> !isBaseOf(baseUris[j], url)
    decreases |baseUris|
  {
    if |baseUris| == 0 then None
    else if isBaseOf(baseUris[0], url) then Some(0)
    else
      match FirstBase(baseUris[1..], url, isBaseOf)
      case None => None
      case Some(i) => Some(i + 1)
  }

  /** `GetExpectedRequestLength`: zero without a header map, without a
      Content-Length entry, or with an entry holding no value; an error for
      two or more values; otherwise the parsed value, negative or not, and
      zero when it does not parse. */
  function ExpectedRequestLength(headers: Option<map<string, seq<string>>>, parseLong: string -> Option<int>): (r: Result<int, HostError>)
    ensures headers.None? ==> r == Ok(0)
    ensures headers.Some? && ContentLengthHeader !in headers.value ==> r == Ok(0)
    ensures headers.Some? && ContentLengthHeader in headers.value ==>
              var values := headers.value[ContentLengthHeader];
              && (|values| == 0 ==> r == Ok(0))
              && (|values| > 1 ==> r == Err(MoreThanOneElement))
              && (|values| == 1 && parseLong(values[0]).None? ==> r == Ok(0))
              && (|values| == 1 && parseLong(values[0]).Some? ==> r == Ok(parseLong(values[0]).value))
    ensures r.Ok? && r.value != 0 ==>
              && headers.Some? && ContentLengthHeader in headers.value
              && |headers.value[ContentLengthHeader]| == 1
              && parseLong(headers.value[ContentLengthHeader][0]) == Some(r.value)
  {
    if headers.None? then Ok(0)
    else if ContentLengthHeader !in headers.value then Ok(0)
    else
      var values := headers.value[ContentLengthHeader];
      if |values| > 1 then Err(MoreThanOneElement)
      else if |values| == 0 then Ok(0)
      else
        match parseLong(values[0])
        case None => Ok(0)
        case Some(length) => Ok(length)
  }

  /** `ConvertRequestToNancyRequest`: find the base URI, read the expected
      body length, and build Nancy's `Url` and `Request`. Nancy's
      `RequestStream.FromStream` refuses a negative expected length, which
      `GetExpectedRequestLength` passes through from the header unchecked. */
  function ConvertRequest(lib: Library, baseUris: seq<Uri>, req: ListenerRequest): (r: Result<Request, HostError>)
    ensures r == Err(NoBaseUri(req.url.text)) <==>
              forall j :: 0 <= j < |baseUris| ==> !lib.isCaseInsensitiveBaseOf(baseUris[j], req.url)
    ensures r.Err? && !r.error.NoBaseUri? ==>
              || (r.error == MoreThanOneElement && ContentLengthHeader in req.headers && |req.headers[ContentLengthHeader]| > 1)
              || (r.error.NegativeBodyLength? && r.error.length < 0
                  && ExpectedRequestLength(Some(req.headers), lib.parseLong) == Ok(r.error.length))
    ensures r.Ok? <==>
              && FirstBase(baseUris, req.url, lib.isCaseInsensitiveBaseOf).Some?
              && ExpectedRequestLength(Some(req.headers), lib.parseLong).Ok?
              && ExpectedRequestLength(Some(req.headers), lib.parseLong).value >= 0
    ensures r.Ok? ==>
              var url := r.value.url;
              && r.value.httpMethod == req.httpMethod
              && r.value.headers == req.headers
              && r.value.userHostAddress == req.remoteAddress
              && r.value.bodyLength >= 0
              && ExpectedRequestLength(Some(req.headers), lib.parseLong) == Ok(r.value.bodyLength)
              && url.scheme == req.url.scheme && url.hostName == req.url.host
              && url.query == req.url.query && url.fragment == req.url.fragment
              && (url.port.None? <==> req.url.isDefaultPort)
              && (url.port.Some? ==> url.port.value == req.url.port)
              && (|url.basePath| == 0 || url.basePath[|url.basePath| - 1] != '/')
              && exists i :: IsFirstBase(baseUris, req.url, lib.isCaseInsensitiveBaseOf, i)
                             && url.basePath == TrimEnd(baseUris[i].absolutePath, '/')
                             && url.path == lib.urlDecode(lib.makeAppLocalPath(baseUris[i], req.url))
  {
    match FirstBase(baseUris, req.url, lib.isCaseInsensitiveBaseOf)
    case None => Err(NoBaseUri(req.url.text))
    case Some(i) =>
      match ExpectedRequestLength(Some(req.headers), lib.parseLong)
      case Err(e) => Err(e)
      case Ok(length) =>
        if length < 0 then Err(NegativeBodyLength(length))
        else
          var base := baseUris[i];
          var url := Url(
            req.url.scheme,
            req.url.host,
            if req.url.isDefaultPort then None else Some(req.url.port),
            TrimEnd(base.absolutePath, '/'),
            lib.urlDecode(lib.makeAppLocalPath(base, req.url)),
            req.url.query,
            req.url.fragment);
          Ok(Request(req.httpMethod, url, length, req.headers, req.remoteAddress))
  }

  /** One `Set-Cookie` header per cookie, in order. */
  function CookieHeaders(cookies: seq<string>): (hs: seq<Header>)
    ensures |hs| == |cookies|
    ensures forall i :: 0 <= i < |cookies| ==> hs[i] == Header(SetCookieHeader, cookies[i])
    decreases |cookies|
  {
    if |cookies| == 0 then [] else [Header(SetCookieHeader, cookies[0])] + CookieHeaders(cookies[1..])
  }

  /** The listener response after conversion, the streaming writer as the
      callback left it, and the exception the callback threw, if any. */
  datatype Rendered = Rendered(response: ListenerResponse, writer: Option<Writer>, error: Option<RenderError>)

  /** `ConvertNancyResponseToResponse`: copy headers, cookies, content type
      and status into a fresh listener response, then run the body callback
      on its output stream. A streaming response's stream is left open for
      later writes; any other response's stream is closed by the `using`
      block, whether or not the callback throws. */
  function ConvertResponse(nr: Response, render: Render): (r: Rendered)
    ensures |r.response.headers| == |nr.headers| + |nr.cookies|
    ensures forall i :: 0 <= i < |nr.headers| ==> r.response.headers[i] == nr.headers[i]
    ensures forall i :: 0 <= i < |nr.cookies| ==>
              r.response.headers[|nr.headers| + i] == Header(SetCookieHeader, nr.cookies[i])
    ensures r.response.contentType == nr.contentType && r.response.statusCode == nr.statusCode
    ensures nr.body.Buffered? ==>
              && r.writer.None?
              && !r.response.output.open
              && r.response.output.bytes == nr.body.written
              && r.response.output.flushed == |nr.body.written|
              && (r.error.Some? <==> nr.body.throws)
              && (r.error.Some? ==> r.error.value == ContentsThrew)
    ensures nr.body.Streaming? && nr.body.writer.initial.Some? ==>
              r.writer.Some? && r.writer.value.stream.Some? && r.response.output == r.writer.value.stream.value
    ensures nr.body.Streaming? && nr.body.writer.initial.None? ==> r.response.output == EmptyOutput
    ensures nr.body.Streaming? && Contents(nr.body.writer, EmptyOutput, render).error.Some? ==>
              r.error == Some(WriterThrew(Contents(nr.body.writer, EmptyOutput, render).error.value))
    ensures nr.body.Streaming? ==>
              && r.response.output.open
              && r.writer == Some(Contents(nr.body.writer, EmptyOutput, render).writer)
              && (r.error.None? <==> Contents(nr.body.writer, EmptyOutput, render).error.None?)
    ensures nr.body.Streaming? && nr.body.writer.initial.Some? && nr.body.writer.serializer.Some? ==>
              && r.error.None?
              && r.response.output == r.writer.value.stream.value
              && r.response.output.bytes
                 == Frame(render(nr.body.writer.serializer.value, nr.body.writer.initial.value))
  {
    var headers := nr.headers + CookieHeaders(nr.cookies);
    match nr.body
    case Buffered(written, throws) =>
      var output := Close(EmptyOutput.(bytes := written));
      Rendered(
        ListenerResponse(headers, nr.contentType, nr.statusCode, output),
        None,
        if throws then Some(ContentsThrew) else None)
    case Streaming(w) =>
      var run := Contents(w, EmptyOutput, render);
      var output := if w.initial.Some? then run.writer.stream.value else EmptyOutput;
      Rendered(
        ListenerResponse(headers, nr.contentType, nr.statusCode, output),
        Some(run.writer),
        if run.error.Some? then Some(WriterThrew(run.error.value)) else None)
  }

  /** What one connection came to: the listener response written (None when
      the connection was abandoned), the streaming writer it produced, and the
      trace lines logged for render failures. */
  datatype Served = Served(response: Option<ListenerResponse>, writer: Option<Writer>, trace: seq<RenderError>)

  const Abandoned: Served := Served(None, None, [])

  /** The body of the outer `try` in `Process`: request translation and the
      engine may throw; a render failure is caught by the inner `catch` and
      logged to the trace as "[SelfHost] Exception while rendering response: ". */
  function Attempt(lib: Library, baseUris: seq<Uri>, engine: Request -> Option<Response>, req: ListenerRequest, render: Render): (r: Result<Served, HostError>)
    ensures ConvertRequest(lib, baseUris, req).Err? ==> r == Err(ConvertRequest(lib, baseUris, req).error)
    ensures ConvertRequest(lib, baseUris, req).Ok? && engine(ConvertRequest(lib, baseUris, req).value).None? ==>
              r == Err(EngineThrew)
    ensures ConvertRequest(lib, baseUris, req).Ok? && engine(ConvertRequest(lib, baseUris, req).value).Some? ==>
              r.Ok?
    ensures r.Ok? ==>
              && ConvertRequest(lib, baseUris, req).Ok?
              && engine(ConvertRequest(lib, baseUris, req).value).Some?
              && var rendered := ConvertResponse(engine(ConvertRequest(lib, baseUris, req).value).value, render);
                 && r.value.response == Some(rendered.response)
                 && r.value.writer == rendered.writer
                 && (rendered.error.None? ==> r.value.trace == [])
                 && (rendered.error.Some? ==> r.value.trace == [rendered.error.value])
  {
    match ConvertRequest(lib, baseUris, req)
    case Err(e) => Err(e)
    case Ok(request) =>
      match engine(request)
      case None => Err(EngineThrew)
      case Some(response) =>
        var rendered := ConvertResponse(response, render);
        var trace := if rendered.error.Some? then [rendered.error.value] else [];
        Ok(Served(Some(rendered.response), rendered.writer, trace))
  }

  /** `Process(ctx)`: no exception escapes. Whatever `Attempt` throws is
      swallowed and the connection abandoned; otherwise its outcome stands. */
  function Process(lib: Library, baseUris: seq<Uri>, engine: Request -> Option<Response>, req: ListenerRequest, render: Render): (r: Served)
    ensures Attempt(lib, baseUris, engine, req, render).Err? ==> r == Abandoned
    ensures Attempt(lib, baseUris, engine, req, render).Ok? ==> r == Attempt(lib, baseUris, engine, req, render).value
  {
    match Attempt(lib, baseUris, engine, req, render)
    case Err(_) => Abandoned
    case Ok(served) => served
  }

  /** A request under no configured base URI makes the body of `Process`
      throw, and `Process` still returns normally with the connection abandoned. */
  lemma UnmatchedRequestIsSwallowed(lib: Library, baseUris: seq<Uri>, engine: Request -> Option<Response>, req: ListenerRequest, render: Render)
    requires forall j :: 0 <= j < |baseUris| ==> !lib.isCaseInsensitiveBaseOf(baseUris[j], req.url)
    ensures Attempt(lib, baseUris, engine, req, render) == Err(NoBaseUri(req.url.text))
    ensures Process(lib, baseUris, engine, req, render) == Abandoned
  {
  }

  /** A buffered response whose callback throws is still closed, the failure
      is logged once, and `Process` returns normally. */
  lemma ThrowingBufferedResponseIsClosedAndLogged(lib: Library, baseUris: seq<Uri>, engine: Request -> Option<Response>, req: ListenerRequest, render: Render)
    requires ConvertRequest(lib, baseUris, req).Ok?
    requires engine(ConvertRequest(lib, baseUris, req).value).Some?
    requires engine(ConvertRequest(lib, baseUris, req).value).value.body.Buffered?
    requires engine(ConvertRequest(lib, baseUris, req).value).value.body.throws
    ensures Process(lib, baseUris, engine, req, render).response.Some?
    ensures !Process(lib, baseUris, engine, req, render).response.value.output.open
    ensures Process(lib, baseUris, engine, req, render).trace == [ContentsThrew]
  {
  }

  /** A streaming response whose writer has no serializer: the initial write
      throws inside the host's callback, the inner `catch` logs it once, the
      response is still sent, and its output is left open. */
  lemma ThrowingStreamingWriterIsLoggedAndOpen(lib: Library, baseUris: seq<Uri>, engine: Request -> Option<Response>, req: ListenerRequest, render: Render)
    requires ConvertRequest(lib, baseUris, req).Ok?
    requires engine(ConvertRequest(lib, baseUris, req).value).Some?
    requires engine(ConvertRequest(lib, baseUris, req).value).value.body.Streaming?
    requires engine(ConvertRequest(lib, baseUris, req).value).value.body.writer.initial.Some?
    requires engine(ConvertRequest(lib, baseUris, req).value).value.body.writer.serializer.None?
    ensures Process(lib, baseUris, engine, req, render).response.Some?
    ensures Process(lib, baseUris, engine, req, render).response.value.output.open
    ensures Process(lib, baseUris, engine, req, render).trace == [WriterThrew(NullReference)]
  {
  }
}

=== FILE: strings.dfy ===
/** The two .NET string operations the listener relies on, modelled exactly. */
module Strings {

  /** `p` is a prefix of `s`. */
  predicate HasPrefix(s: string, p: string) {
    |p| <= |s| && s[..|p|] == p
  }

  /** `p` occurs in `s` as a contiguous substring. */
  predicate Occurs(s: string, p: string)
    decreases |s|
  {
    HasPrefix(s, p) || (|s| > 0 && Occurs(s[1..], p))
  }

  /** Ordinal `String.Replace(pattern, replacement)`: every non-overlapping
      occurrence of `pattern`, found left to right, is replaced. An empty
      pattern is an argument error in .NET, hence the precondition. */
  function ReplaceAll(s: string, pattern: string, replacement: string): string
    requires |pattern| > 0
    decreases |s|
  {
    if |s| == 0 then ""
    else if HasPrefix(s, pattern) then replacement + ReplaceAll(s[|pattern|..], pattern, replacement)
    else [s[0]] + ReplaceAll(s[1..], pattern, replacement)
  }

  /** The first character of the output: the replacement's when the input
      starts with the pattern, the input's own otherwise. */
  lemma ReplaceAllHead(s: string, pattern: string, replacement: string)
    requires |pattern| > 0 && |s| > 0
    ensures HasPrefix(s, pattern) && |replacement| > 0 ==>
              |ReplaceAll(s, pattern, replacement)| > 0 && ReplaceAll(s, pattern, replacement)[0] == replacement[0]
    ensures !HasPrefix(s, pattern) ==>
              |ReplaceAll(s, pattern, replacement)| > 0 && ReplaceAll(s, pattern, replacement)[0] == s[0]
  {
  }

  /** A prefix of the output free of the replacement's first character
      was already a prefix of the input. */
  lemma {:induction false} ReplaceAllKeepsPrefix(t: string, pattern: string, replacement: string, p: string)
    requires |pattern| > 0 && |replacement| > 0 && replacement[0] !in p
    requires HasPrefix(ReplaceAll(t, pattern, replacement), p)
    ensures HasPrefix(t, p)
    decreases |t|
  {
    var r := ReplaceAll(t, pattern, replacement);
    if |p| > 0 && |t| > 0 {
      if HasPrefix(t, pattern) {
        ReplaceAllHead(t, pattern, replacement);
        assert false;
      } else {
        var rest := ReplaceAll(t[1..], pattern, replacement);
        assert r == [t[0]] + rest;
        assert p[1..] == rest[..|p| - 1];
        ReplaceAllKeepsPrefix(t[1..], pattern, replacement, p[1..]);
      }
    }
  }

  /** Replacing by a single character that does not occur in the pattern
      leaves no occurrence of the pattern behind. */
  lemma {:induction false} ReplaceAllRemovesPattern(s: string, pattern: string, replacement: string)
    requires |pattern| > 0 && |replacement| == 1 && replacement[0] !in pattern
    ensures !Occurs(ReplaceAll(s, pattern, replacement), pattern)
    decreases |s|
  {
    var r := ReplaceAll(s, pattern, replacement);
    if HasPrefix(r, pattern) {
      ReplaceAllKeepsPrefix(s, pattern, replacement, pattern);
      ReplaceAllHead(s, pattern, replacement);
      assert false;
    }
    if |s| > 0 {
      if HasPrefix(s, pattern) {
        assert r[1..] == ReplaceAll(s[|pattern|..], pattern, replacement);
        ReplaceAllRemovesPattern(s[|pattern|..], pattern, replacement);
      } else {
        assert r[1..] == ReplaceAll(s[1..], pattern, replacement);
        ReplaceAllRemovesPattern(s[1..], pattern, replacement);
      }
    }
  }

  /** A string without the pattern is returned unchanged. */
  lemma {:induction false} ReplaceAllWithoutPattern(s: string, pattern: string, replacement: string)
    requires |pattern| > 0
    ensures !Occurs(s, pattern) ==> ReplaceAll(s, pattern, replacement) == s
    decreases |s|
  {
    if |s| > 0 {
      ReplaceAllWithoutPattern(s[1..], pattern, replacement);
      assert s == [s[0]] + s[1..];
    }
  }

  /** `String.TrimEnd(c)`: the longest prefix of `s` that does not end in `c`,
      characterised by the three properties below. */
  function TrimEnd(s: string, c: char): (r: string)
    ensures HasPrefix(s, r)
    ensures |r| == 0 || r[|r| - 1] != c
    ensures forall i :: |r| <= i < |s| ==> s[i] == c
    decreases |s|
  {
    if |s| > 0 && s[|s| - 1] == c then TrimEnd(s[..|s| - 1], c) else s
  }

  /** The three properties of `TrimEnd` pin its result down: no other prefix has them. */
  lemma TrimEndUnique(s: string, c: char, p: string)
    requires HasPrefix(s, p)
    requires |p| == 0 || p[|p| - 1] != c
    requires forall i :: |p| <= i < |s| ==> s[i] == c
    ensures p == TrimEnd(s, c)
  {
  }

  /** Trimming twice is trimming once. */
  lemma TrimEndIdempotent(s: string, c: char)
    ensures TrimEnd(TrimEnd(s, c), c) == TrimEnd(s, c)
  {
  }
}
